=== FILE: README.md ===
# Portfolio UI decision logic, in Dafny

This project models the decision logic of a one-page portfolio site: the
navigation bar, the project gallery, the chat section and its widget, and the
chat client. All of it is pure and sequential once browser events are treated
as inputs. Each component is one module of pure functions over immutable
datatypes. The properties the code promises are stated as contracts and
lemmas:

- `Responder` (`src/api/chat.ts`) is the canned-response matcher. It
  lower-cases the query and tests trigger words in a fixed order: experience
  or work, education or study, skill or tech, project, resume, name or who.
  The first topic whose trigger occurs picks one of seven fixed paragraphs.
- `ChatApi` (`src/api/chat.ts`) is `sendMessage`. It turns the history's time
  stamps into ISO text and posts it. When anything throws, it builds an
  assistant reply from the matcher.
- `ChatSession` (`src/components/Chat/ChatUI.tsx`) is the chat widget: a
  transcript, the text being typed, and a loading flag. Typing, submitting
  and the reply timer firing are explicit steps. The widget has its own
  matcher, which lacks the name/who branch.
- `Projects` (`src/components/Projects.tsx`) holds the six-project catalogue,
  the five filter buttons, and the effect that shows all projects or those of
  one type.
- `Navbar` (`src/components/Navbar.tsx`) is the scroll handler. It picks the
  first section whose extent holds `scrollY + 100`, sets the `scrolled` flag,
  computes the link scroll target, and decides link highlighting.
- `ChatPanel` (`src/components/Chat.tsx`) is the show/hide toggle. The
  widget is mounted only while the panel is expanded.
- `Text` models the JavaScript string operations used above: ASCII
  `toLowerCase`, `includes`, `trim` and the decimal `toString` that makes
  message ids. `Messages` holds the shared message record, and `Optional`
  holds the option type.

These modelling choices were made:

- The network call in `sendMessage` is a parameter `transport` from the
  request body to `Option<R>`, where `None` means `fetchAPI` threw.
- The clock is two parameters of type `Messages.Time`, a natural number no
  larger than the largest valid time value, so it always makes a valid
  `Date`. `now` is the `Date.now()` reading that makes a message id. `stamp`
  is the `new Date()` reading that makes its time stamp. The source reads the
  clock twice, so the two may differ by a millisecond.
- The calendar formatting of `toISOString` is a parameter `iso`. An invalid
  `Date` makes `toISOString` throw, and that is modelled: it leads to the
  fallback reply.
- `document.getElementById` is a map `dom` from section id to the element's
  `offsetTop` and `offsetHeight`.
- Timers are steps. The widget's pending reply timers form an explicit queue
  of the inputs they captured. The gallery's timer is the `Settle` step.
- The widget's reply step takes the answering function as a parameter (the
  hook the source leaves for a real assistant). `WidgetReply` and
  `WidgetRunValid` instantiate it with the widget's own matcher.

## Model

| member | source | states |
|---|---|---|
| Text.Lower | src/api/chat.ts:43 | lower-casing keeps the length and maps each character on its own, A-Z to a-z (partner: LowerIdempotent) |
| Text.LowerIdempotent | src/api/chat.ts:43 | lower-casing an already lower-cased query changes nothing |
| Text.IndexOf | src/api/chat.ts:44-55 | the search decides `includes`: it gives -1 exactly when the trigger occurs nowhere, and otherwise a position where it occurs |
| Text.Contains | src/api/chat.ts:44 | the empty word is included in every query, and a word longer than the query is never included |
| Text.Trim | src/components/Chat/ChatUI.tsx:38 | the trimmed input is a slice of the input with only white space cut from either end, and no white space is left at either end |
| Text.BlankIffAllSpace | src/components/Chat/ChatUI.tsx:38 | the input counts as empty exactly when every character of it is white space |
| Text.DecimalString | src/components/Chat/ChatUI.tsx:42 | a message id is a non-empty run of decimal digits with no leading zero |
| Text.ParseDecimalString | src/components/Chat/ChatUI.tsx:42 | reading a message id back gives the time stamp it was made from |
| Text.DecimalStringInjective | src/components/Chat/ChatUI.tsx:55 | two ids are equal exactly when their time stamps are equal |
| Responder.Classify | src/api/chat.ts:44-57 | the branch taken is a topic the lower-cased query mentions, or the general answer, which is taken only when no topic is mentioned (partners: ClassifyIsFirstMentioned, ClassifySpec) |
| Responder.Paragraph | src/api/chat.ts:45-57 | the seven fixed paragraphs, one per branch, as a table with no contract of its own; SimulatedResponse and CaseInsensitive are stated through it |
| Responder.SimulatedResponse | src/api/chat.ts:42-59 | the reply is always one of the seven fixed paragraphs |
| Responder.FirstMentioned | src/api/chat.ts:44-57 | the first-match over the trigger table is the general answer or a listed topic whose trigger occurs |
| Responder.ClassifyIsFirstMentioned | src/api/chat.ts:44-57 | the if-chain picks the same topic as first-match over the ordered trigger table |
| Responder.ClassifySpec | src/api/chat.ts:44-57 | a topic is picked exactly when one of its triggers occurs (or it is the general answer) and no trigger of any earlier topic occurs |
| Responder.CaseInsensitive | src/api/chat.ts:43 | a query and its lower-cased form get the same topic and the same reply |
| Responder.ExperienceFirst | src/api/chat.ts:44-45 | a query holding "experience" or "work" gets the experience paragraph, whatever else it holds |
| Responder.GeneralIffNoKeyword | src/api/chat.ts:56-57 | the general answer is given exactly when none of the ten trigger words occurs in the lower-cased query |
| ChatApi.IsoText | src/api/chat.ts:21 | converting a time stamp succeeds exactly when the date is valid |
| ChatApi.ToWire | src/api/chat.ts:19-22 | a message goes on the wire with id, content and role kept and its time stamp as ISO text; this fails exactly when the date is invalid |
| ChatApi.Serialise | src/api/chat.ts:19-22 | the history is sent in full, in order, with id, content and role unchanged and each time stamp turned into ISO text; any invalid date aborts it |
| ChatApi.SerialiseAppend | src/api/chat.ts:19-22 | serialising a concatenated history concatenates the serialised parts |
| ChatApi.FallbackReply | src/api/chat.ts:32-37 | the fallback reply has the assistant role and the matcher's paragraph as content; its id is decimal digits that read back as the `Date.now()` reading, and its time stamp is the ISO text of the separate `new Date()` reading |
| ChatApi.SendMessage | src/api/chat.ts:12-39 | the server's answer is returned exactly when serialisation and the request succeed; otherwise the result is the fallback reply for the new message, built from the two clock readings |
| ChatApi.FallbackFollowsMatcher | src/api/chat.ts:28-37 | when every request fails, the answer is the matcher's paragraph for the new message |
| ChatSession.LocalClassify | src/components/Chat/ChatUI.tsx:67-83 | the widget's branch is a topic the lower-cased query mentions, or the general answer, and never the name topic (partner: LocalAgreesWithClient) |
| ChatSession.LocalParagraph | src/components/Chat/ChatUI.tsx:70-82 | the widget's five first-person paragraphs; the name topic, which the widget never picks, shares the general answer |
| ChatSession.LocalResponse | src/components/Chat/ChatUI.tsx:67-83 | the widget answers with its paragraph for the client's branch, the name branch replaced by the general answer |
| ChatSession.LocalAgreesWithClient | src/components/Chat/ChatUI.tsx:67-83 | the widget's matcher picks the client's topic, except that the name topic becomes the general answer; it never picks the name topic |
| ChatSession.WhoGetsGeneralAnswer | src/components/Chat/ChatUI.tsx:67-83 | "who" gets the name paragraph from the client but the general answer from the widget |
| ChatSession.Init | src/components/Chat/ChatUI.tsx:17-26 | the widget starts with one assistant greeting with id "1", empty input, not loading, no timer |
| ChatSession.Edit | src/components/Chat/ChatUI.tsx:114-119 | typing replaces the input, except while loading when the input is disabled; nothing else changes |
| ChatSession.Submit | src/components/Chat/ChatUI.tsx:35-50 | a blank input changes nothing; otherwise exactly one user message is appended, holding the untrimmed input, an id from the `Date.now()` reading and a time stamp from the `new Date()` reading; the input is cleared, loading is set and a timer captures the input |
| ChatSession.Reply | src/components/Chat/ChatUI.tsx:53-63 | the timer appends exactly one assistant message answering the input it captured, with id from `Date.now()` + 1 and time stamp from the `new Date()` reading, and clears loading |
| ChatSession.WidgetReply | src/components/Chat/ChatUI.tsx:53-63 | the widget's answer is its own matcher's reply to the captured input |
| ChatSession.StepAppendOnly | src/components/Chat/ChatUI.tsx:48 | every transition keeps the transcript as a prefix of the new one |
| ChatSession.RunAppendOnly | src/components/Chat/ChatUI.tsx:48-61 | over any sequence of events the earlier transcript is a prefix of the later one |
| ChatSession.StepValid | src/components/Chat/ChatUI.tsx:35-63 | every transition preserves the transcript shape: greeting, then alternating non-blank questions and answers, each answer the reply to its question, one pending question exactly while loading |
| ChatSession.RunValid | src/components/Chat/ChatUI.tsx:35-63 | any run from a well-shaped state ends in a well-shaped state |
| ChatSession.WidgetRunValid | src/components/Chat/ChatUI.tsx:17-83 | every state the widget reaches from mounting is well-shaped with its own matcher's answers |
| ChatSession.SubmitEnabled | src/components/Chat/ChatUI.tsx:121 | the send button is enabled exactly when not loading and the input holds a character that is not white space (partner: SubmitEnabledIffEffective) |
| ChatSession.SubmitEnabledIffEffective | src/components/Chat/ChatUI.tsx:121 | in a reachable state the send button is enabled exactly when submitting would change the transcript |
| ChatSession.AtMostOnePending | src/components/Chat/ChatUI.tsx:49-63 | in a reachable state at most one reply is pending |
| Projects.OfKind | src/components/Projects.tsx:145 | the type filter keeps only projects of that type and loses none of them |
| Projects.OfKindCounts | src/components/Projects.tsx:145 | each project of that type occurs in the result as often as in the input, every other project not at all |
| Projects.OfKindIsSubsequence | src/components/Projects.tsx:145 | the filtered list is an order-preserving subsequence of the catalogue |
| Projects.OfKindIdempotent | src/components/Projects.tsx:145 | filtering the result again by the same type returns it unchanged |
| Projects.OfKindAppend | src/components/Projects.tsx:145 | filtering a concatenation filters each part |
| Projects.KindsPartition | src/components/Projects.tsx:145 | when every type is among distinct filters, the per-type results together hold each project exactly once |
| Projects.CatalogueIdsDistinct | src/components/Projects.tsx:14-63 | the catalogue's project ids, used as list keys, are distinct |
| Projects.CatalogueKindsHaveButtons | src/components/Projects.tsx:153 | every project's type has a filter button |
| Projects.TypeFiltersPartitionCatalogue | src/components/Projects.tsx:153 | the four type filters split the catalogue, each project under exactly one |
| Projects.Mount | src/components/Projects.tsx:135-140 | the gallery mounts on "All", showing the catalogue, with the fade running |
| Projects.Select | src/components/Projects.tsx:168 | a click sets the filter; only a new filter starts the fade; the list shown is untouched until the timer |
| Projects.Settle | src/components/Projects.tsx:141-148 | the timer ends the fade and shows the view of the current filter |
| Projects.SelectCoherent | src/components/Projects.tsx:139-151 | after a click the filter is a button and, when no fade runs, the list shown is the filter's view |
| Projects.SettleCoherent | src/components/Projects.tsx:141-148 | after the timer the list shown is the filter's view |
| Projects.IsActive | src/components/Projects.tsx:171 | a button is drawn active exactly when clicking it would change nothing (partner: ExactlyOneActive) |
| Projects.ExactlyOneActive | src/components/Projects.tsx:171 | exactly one filter button is drawn active, the one naming the filter |
| Projects.View | src/components/Projects.tsx:142-146 | the view holds exactly the catalogue's projects, of the filter's type unless the filter is "All", and never more copies than the catalogue (partner: ViewSpec) |
| Projects.ViewSpec | src/components/Projects.tsx:142-146 | "All" shows the whole catalogue; any other filter shows, in order, all and only the projects of that type, and refiltering changes nothing |
| Navbar.Init | src/components/Navbar.tsx:6-7 | the active section starts as "home" and the bar as not scrolled |
| Navbar.Probe | src/components/Navbar.tsx:13 | the point the section must hold is 100 pixels below `window.scrollY` (used by ActiveAfter and HandleScroll) |
| Navbar.FirstHit | src/components/Navbar.tsx:16-27 | the chosen section is present and holds the point, and no earlier section in the list does; none is chosen when no present section holds it |
| Navbar.ActiveAfter | src/components/Navbar.tsx:16-27 | after a scroll the active section is unchanged or a listed section holding scrollY + 100, and is unchanged when no listed section holds it (partner: HandleScroll) |
| Navbar.HandleScroll | src/components/Navbar.tsx:10-35 | the active section becomes the first present section whose half-open extent holds scrollY + 100, else stays; scrolled holds exactly when scrollY > 20 |
| Navbar.ActiveStaysListed | src/components/Navbar.tsx:11 | the active section is always one of the five listed ids |
| Navbar.MissedKeepsActive | src/components/Navbar.tsx:16-27 | when no present section holds the probe the active section is unchanged, and a newly chosen section is present on the page |
| Navbar.DisjointHitIsActive | src/components/Navbar.tsx:16-25 | with non-overlapping sections, the section holding the probe becomes active whatever its place in the list |
| Navbar.ScrollTarget | src/components/Navbar.tsx:49-57 | a link scrolls to 80 pixels above its section, and not at all when the section is missing |
| Navbar.LinkClickActivates | src/components/Navbar.tsx:13-57 | scrolling to a link's target activates its section when sections do not overlap and it is at least 80 pixels down and more than 20 pixels tall |
| Navbar.Highlighted | src/components/Navbar.tsx:82 | a link is highlighted exactly when the section it leads to is the active one (partner: OneLinkHighlighted) |
| Navbar.OneLinkHighlighted | src/components/Navbar.tsx:41-47 | at most one link is highlighted, and one is whenever the active section is listed |
| ChatPanel.Init | src/components/Chat.tsx:9 | the panel starts collapsed |
| ChatPanel.Toggle | src/components/Chat.tsx:11-13 | toggling flips the expanded flag |
| ChatPanel.ToggleTwice | src/components/Chat.tsx:11-13 | toggling twice restores the panel |
| ChatPanel.Label | src/components/Chat.tsx:32 | the label is "Hide Chat" exactly when expanded and "Start Chatting" exactly when collapsed |
| ChatPanel.ContainerClasses | src/components/Chat.tsx:40 | the zero-height, zero-opacity classes are used exactly when collapsed |
| ChatPanel.Click | src/components/Chat.tsx:43-47 | expanding mounts a fresh widget and collapsing unmounts it |
| ChatPanel.Interact | src/components/Chat.tsx:43-47 | events reach the widget only while it is mounted; they leave the panel as it is and only extend the transcript |
| ChatPanel.ClickMounted | src/components/Chat.tsx:43-47 | the widget is rendered exactly while the panel is expanded |
| ChatPanel.ReopenForgets | src/components/Chat.tsx:43-47 | hiding and re-showing the chat starts over from the single greeting |

## Left out

- `fetchAPI` (`src/api/config.ts`) and the contact POST wrappers
  (`src/api/contact.ts`) are network I/O. The request's outcome is the
  `transport` parameter, and `JSON.stringify` of the body is not modelled.
- Lower-casing covers only the ASCII letters. JavaScript's full Unicode
  `toLowerCase` also maps other letters. For example, U+212A KELVIN SIGN
  becomes "k", so "WOR" followed by that sign would match "work". Strings are
  sequences of Unicode scalar values, not UTF-16 code units.
- The calendar formatting of `toISOString` is the `iso` parameter. Only
  whether it throws is modelled.
- `scrollY` is an integer. A browser can report fractional scroll positions.
- Navbar.LinkClickActivates: the browser clamps `window.scrollTo` at 0 and
  at the page's maximum scroll position, and neither clamp is modelled. The
  lemma is about a scroll event that reports the link's target exactly, and
  asks for sections at least 80 pixels down. A short last section near the
  bottom of the page may never reach that target, so clicking its link need
  not activate it.
- Message ids come from `Date.now()`. Their uniqueness is not asserted,
  because two messages in the same millisecond share an id.
- Locale time formatting (`src/components/Chat/ChatMessage.tsx`), the
  auto-scroll effect, the toast hook, styling and markup are presentation.
- The `console` logging in `sendMessage` is not modelled.
- The IntersectionObserver reveal effects (`Hero`, `About`, `Skills`,
  `ProjectCard`) and the floating `ChatButton` timers are left out. They are
  DOM callbacks and CSS toggling.
- The footer test is left out. Its component is not part of this model.
- A reply timer that fires after the widget was hidden (unmounted) has no
  visible effect, so `ChatPanel` drops it together with the widget.
- Responder: the chat client's matcher has ten trigger words
  (experience, work, education, study, skill, tech, project, resume, name,
  who). `Responder.GeneralIffNoKeyword` is stated over those ten.
- Responder.SimulatedResponse: the seven paragraphs are never shown to be
  pairwise distinct. Comparing long string literals is too costly for the
  verifier, so the matcher's properties are stated over the chosen `Topic`
  rather than over the paragraph text.

=== FILE: chat_api.dfy ===
/** `sendMessage` of the chat client (`src/api/chat.ts`): the history is sent
    with every time stamp turned into ISO text; when the request fails, a reply
    is built locally from the canned-response matcher. */
module ChatApi {

  import opened Optional
  import opened Text
  import opened Messages
  import opened Responder

  /** A message as it goes over the wire: the time stamp is ISO text. */
  datatype WireMessage = WireMessage(id: string, content: string, role: Role, timestamp: string)

  /** The body of `POST /chat`. */
  datatype ChatRequest = ChatRequest(messages: seq<WireMessage>, newMessage: string)

  /** What `sendMessage` resolves to: whatever the server answered, or the
      locally built fallback reply. */
  datatype SendResult<R> = Delivered(response: R) | Fallback(reply: WireMessage)

  /** `date.toISOString()`: the ISO text of a valid date; it throws (None) on
      an invalid one. The calendar formatting itself is the parameter `iso`. */
  function IsoText(d: Date, iso: int -> string): (r: Option<string>)
    ensures r.Some? <==> IsValidDate(d)
  {
    if IsValidDate(d) then Some(iso(d.ms)) else None
  }

  /** `{ ...msg, timestamp: msg.timestamp.toISOString() }`. */
  function ToWire(m: Message, iso: int -> string): (r: Option<WireMessage>)
    ensures r.Some? <==> IsValidDate(m.timestamp)
    ensures r.Some? ==> r.value == WireMessage(m.id, m.content, m.role, iso(m.timestamp.ms))
  {
    match IsoText(m.timestamp, iso)
    case Some(t) => Some(WireMessage(m.id, m.content, m.role, t))
    case None => None
  }

  /** `messages.map(...)`: the first invalid time stamp aborts the mapping. */
  function Serialise(history: seq<Message>, iso: int -> string): (r: Option<seq<WireMessage>>)
    ensures r.Some? <==> forall i :: 0 <= i < |history| ==> IsValidDate(history[i].timestamp)
    ensures r.Some? ==> |r.value| == |history|
    ensures r.Some? ==> forall i :: 0 <= i < |history| ==>
              && r.value[i].id == history[i].id
              && r.value[i].content == history[i].content
              && r.value[i].role == history[i].role
              && r.value[i].timestamp == iso(history[i].timestamp.ms)
  {
    if history == [] then Some([])
    else
      match ToWire(history[0], iso)
      case None => None
      case Some(w) =>
        match Serialise(history[1..], iso)
        case None => None
        case Some(ws) => Some([w] + ws)
  }

  /** Serialising a longer history serialises each part. */
  lemma {:induction false} SerialiseAppend(a: seq<Message>, b: seq<Message>, iso: int -> string)
    ensures Serialise(a + b, iso).Some? <==> Serialise(a, iso).Some? && Serialise(b, iso).Some?
    ensures Serialise(a + b, iso).Some? ==>
              Serialise(a + b, iso).value == Serialise(a, iso).value + Serialise(b, iso).value
  {
    if a != [] {
      assert (a + b)[1..] == a[1..] + b;
      SerialiseAppend(a[1..], b, iso);
    } else {
      assert a + b == b;
    }
  }

  /** The reply built in the `catch` branch. The clock is read twice: its id
      is the decimal text of `now` (`Date.now()`) and its time stamp the ISO
      text of `stamp` (`new Date()`), which may be a later millisecond. */
  function FallbackReply(newMessage: string, now: Time, stamp: Time, iso: int -> string): (r: WireMessage)
    ensures r.role == Assistant
    ensures r.content == SimulatedResponse(newMessage)
    ensures && |r.id| > 0
            && (forall i :: 0 <= i < |r.id| ==> IsDigit(r.id[i]))
            && ParseDecimal(r.id) == now
    ensures r.timestamp == iso(stamp)
  {
    ParseDecimalString(now);
    WireMessage(DecimalString(now), SimulatedResponse(newMessage), Assistant, iso(stamp))
  }

  /** `sendMessage(history, newMessage)`. `transport` stands for `fetchAPI`
      on `POST /chat`: `None` when it throws, the parsed body otherwise.
      `now` is `Date.now()`, a valid time value. */
  function SendMessage<R>(history: seq<Message>, newMessage: string,
                          transport: ChatRequest -> Option<R>,
                          now: Time, stamp: Time, iso: int -> string): (r: SendResult<R>)
    ensures r.Delivered? <==>
              && Serialise(history, iso).Some?
              && transport(ChatRequest(Serialise(history, iso).value, newMessage)).Some?
    ensures r.Delivered? ==>
              r.response == transport(ChatRequest(Serialise(history, iso).value, newMessage)).value
    ensures r.Fallback? ==> r.reply.role == Assistant
    ensures r.Fallback? ==> r.reply.content == SimulatedResponse(newMessage)
    ensures r.Fallback? ==> r.reply.timestamp == iso(stamp)
    ensures r.Fallback? ==> r.reply == FallbackReply(newMessage, now, stamp, iso)
  {
    match Serialise(history, iso)
    case None => Fallback(FallbackReply(newMessage, now, stamp, iso))
    case Some(wire) =>
      match transport(ChatRequest(wire, newMessage))
      case Some(response) => Delivered(response)
      case None => Fallback(FallbackReply(newMessage, now, stamp, iso))
  }

  /** The fallback reply answers the question the way the matcher does, so a
      failed request about experience is answered with the experience paragraph. */
  lemma FallbackFollowsMatcher<R>(history: seq<Message>, newMessage: string,
                                  transport: ChatRequest -> Option<R>,
                                  now: Time, stamp: Time, iso: int -> string)
    requires forall req :: transport(req).None?
    ensures SendMessage(history, newMessage, transport, now, stamp, iso).Fallback?
    ensures SendMessage(history, newMessage, transport, now, stamp, iso).reply.content
            == Paragraph(Classify(newMessage))
  {
  }
}

=== FILE: chat_panel.dfy ===
/** The chat section (`src/components/Chat.tsx`): a button that shows or
    hides the chat widget. The widget is mounted only while the panel is
    expanded, so hiding it discards its transcript. */
module ChatPanel {

  import opened Optional
  import ChatSession
  import Messages

  datatype Panel = Panel(expanded: bool)

  const HideLabel: string := "Hide Chat"
  const ShowLabel: string := "Start Chatting"

  /** The container's size and opacity classes. */
  const OpenClasses: string := "max-h-[75vh] opacity-100"
  const ClosedClasses: string := "max-h-0 opacity-0"

  function Init(): (p: Panel)
    ensures !p.expanded
  {
    Panel(false)
  }

  /** `toggleChat`. */
  function Toggle(p: Panel): (q: Panel)
    ensures q.expanded != p.expanded
  {
    Panel(!p.expanded)
  }

  lemma ToggleTwice(p: Panel)
    ensures Toggle(Toggle(p)) == p
  {
  }

  /** The button label. */
  function Label(p: Panel): (r: string)
    ensures r == HideLabel <==> p.expanded
    ensures r == ShowLabel <==> !p.expanded
  {
    if p.expanded then HideLabel else ShowLabel
  }

  /** The container classes. */
  function ContainerClasses(p: Panel): (r: string)
    ensures r == ClosedClasses <==> !p.expanded
  {
    if p.expanded then OpenClasses else ClosedClasses
  }

  /** The section with the widget it holds: present exactly while expanded. */
  datatype Section = Section(panel: Panel, chat: Option<ChatSession.Session>)

  function Open(): (s: Section)
    ensures !s.panel.expanded && s.chat.None?
  {
    Section(Init(), None)
  }

  /** A click on the button at time `now`: expanding mounts a fresh widget,
      collapsing unmounts it. */
  function Click(s: Section, now: Messages.Time): (t: Section)
    ensures t.panel == Toggle(s.panel)
    ensures t.panel.expanded ==> t.chat == Some(ChatSession.Init(now))
    ensures !t.panel.expanded ==> t.chat.None?
  {
    var p := Toggle(s.panel);
    Section(p, if p.expanded then Some(ChatSession.Init(now)) else None)
  }

  /** Something happens inside the widget; with no widget mounted nothing does. */
  function Interact(s: Section, e: ChatSession.Event): (t: Section)
    ensures t.panel == s.panel && t.chat.Some? == s.chat.Some?
    ensures s.chat.Some? ==> s.chat.value.messages <= t.chat.value.messages
  {
    match s.chat
    case None => s
    case Some(c) => Section(s.panel, Some(ChatSession.Step(c, e, ChatSession.LocalResponse)))
  }

  /** The widget is rendered exactly while the panel is expanded. */
  predicate Mounted(s: Section) {
    s.chat.Some? <==> s.panel.expanded
  }

  lemma OpenMounted()
    ensures Mounted(Open())
  {
  }

  lemma ClickMounted(s: Section, now: Messages.Time)
    requires Mounted(s)
    ensures Mounted(Click(s, now))
  {
  }

  lemma InteractMounted(s: Section, e: ChatSession.Event)
    requires Mounted(s)
    ensures Mounted(Interact(s, e))
  {
  }

  /** Hiding the chat and showing it again starts over from the greeting,
      whatever had been said before. */
  lemma ReopenForgets(s: Section, hideAt: Messages.Time, showAt: Messages.Time)
    requires s.panel.expanded
    ensures Click(Click(s, hideAt), showAt).panel.expanded
    ensures Click(Click(s, hideAt), showAt).chat == Some(ChatSession.Init(showAt))
    ensures |Click(Click(s, hideAt), showAt).chat.value.messages| == 1
  {
  }
}

=== FILE: chat_session.dfy ===
/** The chat widget (`src/components/Chat/ChatUI.tsx`): a transcript, the
    text being typed, and a loading flag. A submit appends the user's message
    and starts a timer; when the timer fires, an answer chosen by the widget's
    own five-topic matcher is appended. Timers are explicit steps here. */
module ChatSession {

  import opened Text
  import opened Messages
  import Responder

  // ---------------------------------------------------------------------------
  // The widget's own matcher
  // ---------------------------------------------------------------------------

  /** The branch the widget's `getSimulatedResponse` takes. It tests the same
      triggers as the client's matcher but has no name/who branch. */
  function LocalClassify(query: string): (t: Responder.Topic)
    ensures t != Responder.Identity
    ensures t == Responder.General || Responder.Mentions(Lower(query), t)
  {
    var lq := Lower(query);
    Responder.MentionsUnfolded(lq);
    if Contains(lq, "experience") || Contains(lq, "work") then Responder.Experience
    else if Contains(lq, "education") || Contains(lq, "study") then Responder.Education
    else if Contains(lq, "skill") || Contains(lq, "tech") then Responder.Skills
    else if Contains(lq, "project") then Responder.Projects
    else if Contains(lq, "resume") then Responder.Resume
    else Responder.General
  }

  /** The widget's paragraphs, written in the first person. */
  function LocalParagraph(t: Responder.Topic): string {
    match t
    case Experience => "I have over 8 years of experience in DevOps, working with companies like AWS, Google Cloud, and various startups to implement CI/CD pipelines, infrastructure as code, and kubernetes deployments."
    case Education => "I have a Master's degree in Computer Science with a focus on distributed systems from Stanford University."
    case Skills => "My technical skills include: Kubernetes, Docker, Terraform, AWS, GCP, Azure, CI/CD (Jenkins, GitHub Actions, GitLab CI), Ansible, Prometheus, Grafana, ELK stack, and various programming languages like Python, Go, and Bash."
    case Projects => "I've led several significant projects, including a complete cloud migration for a Fortune 500 company, implementing a zero-downtime deployment system, and building an automated disaster recovery solution that reduced recovery time by 80%."
    case Resume => "You can download my full resume by clicking the 'Download Resume' button in the contact section. It includes detailed information about my work history, projects, and technical skills."
    case Identity | General => "Thanks for your question! As an AI representing this portfolio, I can tell you about the DevOps Engineer's experience, skills, projects, education, or resume. Feel free to ask something specific!"
  }

  /** The widget's `getSimulatedResponse(query)`: the first-person paragraph
      for the client's branch, with the name paragraph replaced by the
      general answer. */
  function LocalResponse(query: string): (r: string)
    ensures r == LocalParagraph(if Responder.Classify(query) == Responder.Identity
                            then Responder.General else Responder.Classify(query))
  {
    LocalAgreesWithClient(query);
    LocalParagraph(LocalClassify(query))
  }

  /** The widget's matcher agrees with the client's except that a query the
      client would answer with the name paragraph gets the general answer. */
  lemma LocalAgreesWithClient(query: string)
    ensures LocalClassify(query) ==
              if Responder.Classify(query) == Responder.Identity then Responder.General
              else Responder.Classify(query)
    ensures LocalClassify(query) != Responder.Identity
  {
  }

  /** "who" alone: the client answers with its name paragraph, the widget
      with its general answer. */
  lemma WhoGetsGeneralAnswer()
    ensures Responder.Classify("who") == Responder.Identity
    ensures LocalClassify("Who") == Responder.General
  {
    var lq := Lower("Who");
    assert lq == "who" == Lower("who");
    assert OccursAt(lq, "who", 0);
    forall k | k in ["experience", "work", "education", "study", "skill", "tech", "project", "resume", "name"]
      ensures !Contains(lq, k)
    {
      TooLongNotContained(lq, k);
    }
  }

  // ---------------------------------------------------------------------------
  // State and transitions
  // ---------------------------------------------------------------------------

  /** The widget state. `pending` holds, oldest first, the input each
      scheduled reply timer captured; it is not React state but the timer
      queue. */
  datatype Session = Session(messages: seq<Message>, input: string, loading: bool,
                             pending: seq<string>)

  const GreetingText: string :=
    "Hi there! I'm the AI assistant for this portfolio. Ask me anything about the DevOps Engineer's experience, skills, projects, or resume!"

  /** The state the widget mounts with, at time `now`. */
  function Init(now: Time): (s: Session)
    ensures |s.messages| == 1 && s.messages[0].role == Assistant
    ensures s.messages[0].content == GreetingText && s.messages[0].id == "1"
    ensures s.input == "" && !s.loading && s.pending == []
  {
    Session([Message("1", GreetingText, Assistant, At(now))], "", false, [])
  }

  /** Typing: the input's `onChange`. The input is disabled while loading, so
      no change arrives then. */
  function Edit(s: Session, text: string): (t: Session)
    ensures t.messages == s.messages && t.loading == s.loading && t.pending == s.pending
    ensures t.input == if s.loading then s.input else text
  {
    if s.loading then s else s.(input := text)
  }

  /** `handleSubmit`. The id comes from `Date.now()`, read as `now`, and the
      time stamp from `new Date()`, read as `stamp`. */
  function Submit(s: Session, now: Time, stamp: Time): (t: Session)
    ensures IsBlank(s.input) ==> t == s
    ensures !IsBlank(s.input) ==>
              && |t.messages| == |s.messages| + 1
              && t.messages[..|s.messages|] == s.messages
              && t.messages[|s.messages|] == Message(DecimalString(now), s.input, User, At(stamp))
              && t.input == "" && t.loading
              && t.pending == s.pending + [s.input]
  {
    if IsBlank(s.input) then s
    else
      Session(s.messages + [Message(DecimalString(now), s.input, User, At(stamp))],
              "", true, s.pending + [s.input])
  }

  /** The oldest reply timer fires (`Date.now()` reads `now`, `new Date()`
      reads `stamp`) and appends `respond`'s
      answer to the input it captured. With no timer pending nothing happens.
      The widget answers with `LocalResponse` (see `WidgetReply`); the
      transitions are stated for any answering function, the hook the source
      leaves for a real assistant. */
  function Reply(s: Session, now: Time, stamp: Time, respond: string -> string): (t: Session)
    ensures s.pending == [] ==> t == s
    ensures s.pending != [] ==>
              && |t.messages| == |s.messages| + 1
              && t.messages[..|s.messages|] == s.messages
              && t.messages[|s.messages|].role == Assistant
              && t.messages[|s.messages|].content == respond(s.pending[0])
              && t.messages[|s.messages|].id == DecimalString(now + 1)
              && t.messages[|s.messages|].timestamp == At(stamp)
              && t.input == s.input && !t.loading
              && t.pending == s.pending[1..]
  {
    if s.pending == [] then s
    else
      var answer := Message(DecimalString(now + 1), respond(s.pending[0]), Assistant, At(stamp));
      Session(s.messages + [answer], s.input, false, s.pending[1..])
  }

  /** The widget's timer callback. */
  function WidgetReply(s: Session, now: Time, stamp: Time): (t: Session)
    ensures s.pending != [] ==>
              && |t.messages| == |s.messages| + 1 && t.messages[..|s.messages|] == s.messages
              && t.messages[|s.messages|].content == LocalResponse(s.pending[0])
  {
    Reply(s, now, stamp, LocalResponse)
  }

  /** The send button's `disabled={isLoading || !input.trim()}`, negated. */
  function SubmitEnabled(s: Session): (b: bool)
    ensures b <==> !s.loading && exists i :: 0 <= i < |s.input| && !IsJsSpace(s.input[i])
  {
    BlankIffAllSpace(s.input);
    !s.loading && !IsBlank(s.input)
  }

  datatype Event = Type(text: string) | Send(now: Time, stamp: Time) | TimerFires(now: Time, stamp: Time)

  function Step(s: Session, e: Event, respond: string -> string): Session {
    match e
    case Type(text) => Edit(s, text)
    case Send(now, stamp) => Submit(s, now, stamp)
    case TimerFires(now, stamp) => Reply(s, now, stamp, respond)
  }

  function Run(s: Session, events: seq<Event>, respond: string -> string): Session
    decreases |events|
  {
    if events == [] then s else Run(Step(s, events[0], respond), events[1..], respond)
  }

  // ---------------------------------------------------------------------------
  // Properties
  // ---------------------------------------------------------------------------

  /** Every transition only appends to the transcript. */
  lemma StepAppendOnly(s: Session, e: Event, respond: string -> string)
    ensures s.messages <= Step(s, e, respond).messages
  {
  }

  /** Across any run, each earlier transcript is a prefix of each later one. */
  lemma {:induction false} RunAppendOnly(s: Session, events: seq<Event>, respond: string -> string)
    ensures s.messages <= Run(s, events, respond).messages
    decreases |events|
  {
    if events != [] {
      StepAppendOnly(s, events[0], respond);
      RunAppendOnly(Step(s, events[0], respond), events[1..], respond);
    }
  }

  /** After the greeting, odd positions are the user's and even ones the
      assistant's. */
  predicate Alternates(m: seq<Message>) {
    forall i :: 1 <= i < |m| ==> m[i].role == (if i % 2 == 1 then User else Assistant)
  }

  /** Every question in the transcript is non-blank. */
  predicate QuestionsNonBlank(m: seq<Message>) {
    forall i :: 1 <= i < |m| && i % 2 == 1 ==> !IsBlank(m[i].content)
  }

  /** Every answer is `respond`'s reply to the question before it. */
  predicate AnswersMatch(m: seq<Message>, respond: string -> string) {
    forall i :: 1 <= i < |m| - 1 && i % 2 == 1 ==> m[i + 1].content == respond(m[i].content)
  }

  /** The shape of every reachable state: the greeting, then questions and
      answers alternating, each answer the widget matcher's reply to the
      question before it; while loading, exactly one question awaits its
      answer, the input is empty, and the timer holds that question. */
  predicate Valid(s: Session, respond: string -> string) {
    var m := s.messages;
    && |m| >= 1
    && m[0].role == Assistant && m[0].content == GreetingText
    && Alternates(m) && QuestionsNonBlank(m) && AnswersMatch(m, respond)
    && (s.loading <==> |m| % 2 == 0)
    && (s.loading ==> s.input == "" && s.pending == [m[|m| - 1].content])
    && (!s.loading ==> s.pending == [])
  }

  lemma AppendQuestion(m: seq<Message>, q: Message, respond: string -> string)
    requires |m| % 2 == 1 && Alternates(m) && QuestionsNonBlank(m) && AnswersMatch(m, respond)
    requires q.role == User && !IsBlank(q.content)
    ensures Alternates(m + [q]) && QuestionsNonBlank(m + [q]) && AnswersMatch(m + [q], respond)
  {
    var n := m + [q];
    forall i | 1 <= i < |n| - 1 && i % 2 == 1
      ensures n[i + 1].content == respond(n[i].content)
    {
      assert n[i] == m[i] && n[i + 1] == m[i + 1];
    }
  }

  lemma AppendAnswer(m: seq<Message>, a: Message, respond: string -> string)
    requires |m| % 2 == 0 && |m| >= 2 && Alternates(m) && QuestionsNonBlank(m) && AnswersMatch(m, respond)
    requires a.role == Assistant && a.content == respond(m[|m| - 1].content)
    ensures Alternates(m + [a]) && QuestionsNonBlank(m + [a]) && AnswersMatch(m + [a], respond)
  {
    var n := m + [a];
    forall i | 1 <= i < |n| - 1 && i % 2 == 1
      ensures n[i + 1].content == respond(n[i].content)
    {
      if i + 1 < |m| {
        assert n[i] == m[i] && n[i + 1] == m[i + 1];
      } else {
        assert n[i] == m[|m| - 1] && n[i + 1] == a;
      }
    }
  }

  lemma InitValid(now: Time, respond: string -> string)
    ensures Valid(Init(now), respond)
  {
  }

  lemma EditValid(s: Session, text: string, respond: string -> string)
    requires Valid(s, respond)
    ensures Valid(Edit(s, text), respond)
  {
  }

  lemma SubmitValid(s: Session, now: Time, stamp: Time, respond: string -> string)
    requires Valid(s, respond)
    ensures Valid(Submit(s, now, stamp), respond)
  {
    if s.loading {
      assert IsBlank(s.input) by { assert Trim("") == []; }
    } else if !IsBlank(s.input) {
      AppendQuestion(s.messages, Message(DecimalString(now), s.input, User, At(stamp)), respond);
    }
  }

  lemma ReplyValid(s: Session, now: Time, stamp: Time, respond: string -> string)
    requires Valid(s, respond)
    ensures Valid(Reply(s, now, stamp, respond), respond)
  {
    if s.pending != [] {
      var answer := Message(DecimalString(now + 1), respond(s.pending[0]), Assistant, At(stamp));
      AppendAnswer(s.messages, answer, respond);
      assert Reply(s, now, stamp, respond).messages == s.messages + [answer];
    }
  }

  lemma StepValid(s: Session, e: Event, respond: string -> string)
    requires Valid(s, respond)
    ensures Valid(Step(s, e, respond), respond)
  {
    match e
    case Type(text) => EditValid(s, text, respond);
    case Send(now, stamp) => SubmitValid(s, now, stamp, respond);
    case TimerFires(now, stamp) => ReplyValid(s, now, stamp, respond);
  }

  /** Every state the widget reaches from mounting has the shape `Valid`
      describes, with every answer given by the widget's matcher. */
  lemma {:induction false} RunValid(s: Session, events: seq<Event>, respond: string -> string)
    requires Valid(s, respond)
    ensures Valid(Run(s, events, respond), respond)
    decreases |events|
  {
    if events != [] {
      StepValid(s, events[0], respond);
      RunValid(Step(s, events[0], respond), events[1..], respond);
    }
  }

  lemma WidgetRunValid(now: Time, events: seq<Event>)
    ensures Valid(Run(Init(now), events, LocalResponse), LocalResponse)
  {
    InitValid(now, LocalResponse);
    RunValid(Init(now), events, LocalResponse);
  }

  /** In a reachable state the send button is enabled exactly when a submit
      would change the transcript: while loading the input is empty, so the
      handler's own blank check already refuses. */
  lemma SubmitEnabledIffEffective(s: Session, now: Time, stamp: Time, respond: string -> string)
    requires Valid(s, respond)
    ensures SubmitEnabled(s) <==> Submit(s, now, stamp).messages != s.messages
  {
    if s.loading {
      assert Trim("") == [];
    }
  }

  /** At most one reply is ever pending, so answers never pile up. */
  lemma AtMostOnePending(s: Session, respond: string -> string)
    requires Valid(s, respond)
    ensures |s.pending| <= 1
  {
  }
}

=== FILE: messages.dfy ===
/** The chat message record shared by the chat client (`src/api/chat.ts`) and
    the chat widget (`src/components/Chat/ChatUI.tsx`). */
module Messages {

  datatype Role = User | Assistant

  /** A JavaScript `Date`: a time value in milliseconds since the epoch, or
      the NaN time value of an invalid date. */
  datatype Date = At(ms: int) | InvalidDate

  /** The largest magnitude of a valid time value (section 21.4.1.1 of
      ECMA-262: 100,000,000 days either side of the epoch). */
  const MaxTimeValue: int := 8_640_000_000_000_000

  /** A clock reading, `Date.now()`: a non-negative time value that makes a
      valid date. */
  type Time = n: nat | n <= MaxTimeValue

  predicate IsValidDate(d: Date) {
    d.At? && -MaxTimeValue <= d.ms <= MaxTimeValue
  }

  datatype Message = Message(id: string, content: string, role: Role, timestamp: Date)
}

=== FILE: navbar.dfy ===
/** The navigation bar (`src/components/Navbar.tsx`): on every scroll it
    marks as active the first page section, in a fixed order, whose vertical
    extent contains a probe point 100 pixels below the top of the viewport,
    and it records whether the page has scrolled past 20 pixels. A click on a
    link scrolls to 80 pixels above its section. */
module Navbar {

  import opened Optional

  /** The section ids the scroll handler checks, in order; the links follow
      the same order. */
  const SectionIds: seq<string> := ["home", "about", "skills", "projects", "contact"]

  /** The link labels, paired with the section they lead to. */
  const NavLinks: seq<(string, string)> :=
    [("Home", "home"), ("About", "about"), ("Skills", "skills"),
     ("Projects", "projects"), ("Contact", "contact")]

  /** An element's `offsetTop` and `offsetHeight`. */
  datatype Box = Box(offsetTop: int, height: int)

  /** `document.getElementById`: the elements present on the page. */
  type Dom = map<string, Box>

  /** `activeSection` and `scrolled`. */
  datatype Nav = Nav(active: string, scrolled: bool)

  const ProbeOffset: int := 100
  const ScrolledThreshold: int := 20
  const HeaderOffset: int := 80

  function Init(): (n: Nav)
    ensures n.active == "home" && !n.scrolled
  {
    Nav("home", false)
  }

  /** The point whose section becomes active: `window.scrollY + 100`. */
  function Probe(scrollY: int): int {
    scrollY + ProbeOffset
  }

  /** The half-open extent `[offsetTop, offsetTop + height)` holds `y`. */
  predicate Covers(b: Box, y: int) {
    b.offsetTop <= y < b.offsetTop + b.height
  }

  /** Section `id` is on the page and holds `y`. */
  predicate Hit(dom: Dom, id: string, y: int) {
    id in dom && Covers(dom[id], y)
  }

  /** The first id of `ids` that is hit, if any. */
  function FirstHit(ids: seq<string>, dom: Dom, y: int): (r: Option<nat>)
    ensures r.Some? ==> r.value < |ids| && Hit(dom, ids[r.value], y)
    ensures r.Some? ==> forall j :: 0 <= j < r.value ==> !Hit(dom, ids[j], y)
    ensures r.None? ==> forall j :: 0 <= j < |ids| ==> !Hit(dom, ids[j], y)
  {
    if ids == [] then None
    else if Hit(dom, ids[0], y) then Some(0)
    else match FirstHit(ids[1..], dom, y)
      case None => None
      case Some(k) => Some(k + 1)
  }

  /** The active section after a scroll to `scrollY`. */
  function ActiveAfter(prev: string, scrollY: int, dom: Dom): (r: string)
    ensures r == prev || (r in SectionIds && Hit(dom, r, Probe(scrollY)))
    ensures (forall k :: 0 <= k < |SectionIds| ==> !Hit(dom, SectionIds[k], Probe(scrollY))) ==> r == prev
  {
    match FirstHit(SectionIds, dom, Probe(scrollY))
    case Some(k) => SectionIds[k]
    case None => prev
  }

  /** `handleScroll`, written as the source's loop with an early exit. */
  method HandleScroll(n: Nav, scrollY: int, dom: Dom) returns (m: Nav)
    ensures m.scrolled <==> scrollY > ScrolledThreshold
    ensures (exists k :: 0 <= k < |SectionIds| && Hit(dom, SectionIds[k], scrollY + 100)
              && m.active == SectionIds[k]
              && forall j :: 0 <= j < k ==> !Hit(dom, SectionIds[j], scrollY + 100))
            || ((forall k :: 0 <= k < |SectionIds| ==> !Hit(dom, SectionIds[k], scrollY + 100))
                && m.active == n.active)
    ensures m.active == ActiveAfter(n.active, scrollY, dom)
  {
    var active := n.active;
    var position := scrollY + ProbeOffset;
    var i := 0;
    while i < |SectionIds|
      invariant 0 <= i <= |SectionIds|
      invariant forall j :: 0 <= j < i ==> !Hit(dom, SectionIds[j], position)
      invariant active == n.active
    {
      var section := SectionIds[i];
      if section in dom {
        var box := dom[section];
        if position >= box.offsetTop && position < box.offsetTop + box.height {
          active := section;
          break;
        }
      }
      i := i + 1;
    }
    var r := FirstHit(SectionIds, dom, position);
    if i < |SectionIds| {
      assert r == Some(i);
    } else {
      assert r == None;
    }
    m := Nav(active, scrollY > ScrolledThreshold);
  }

  /** The active section never leaves the listed ids. */
  lemma ActiveStaysListed(prev: string, scrollY: int, dom: Dom)
    requires prev in SectionIds
    ensures ActiveAfter(prev, scrollY, dom) in SectionIds
  {
  }

  /** A scroll whose probe lies in no present section keeps the active one;
      a section whose element is missing is never chosen. */
  lemma MissedKeepsActive(prev: string, scrollY: int, dom: Dom)
    ensures (forall id :: id in SectionIds ==> !Hit(dom, id, Probe(scrollY)))
            ==> ActiveAfter(prev, scrollY, dom) == prev
    ensures ActiveAfter(prev, scrollY, dom) != prev ==>
              var a := ActiveAfter(prev, scrollY, dom);
              a in dom && Covers(dom[a], Probe(scrollY))
  {
  }

  /** The present sections do not overlap. */
  predicate Disjoint(dom: Dom) {
    forall a, b :: a in dom && b in dom && a != b ==>
      dom[a].offsetTop + dom[a].height <= dom[b].offsetTop
      || dom[b].offsetTop + dom[b].height <= dom[a].offsetTop
  }

  /** With non-overlapping sections the first hit is the only hit, so the
      order of the list does not matter. */
  lemma DisjointHitIsActive(prev: string, scrollY: int, dom: Dom, id: string)
    requires Disjoint(dom) && id in SectionIds && Hit(dom, id, Probe(scrollY))
    ensures ActiveAfter(prev, scrollY, dom) == id
  {
    var r := FirstHit(SectionIds, dom, Probe(scrollY));
    assert r.Some?;
  }

  /** `scrollToSection(id)`: the scroll target, or nothing when the section
      is not on the page. */
  function ScrollTarget(id: string, dom: Dom): (r: Option<int>)
    ensures r.Some? <==> id in dom
    ensures r.Some? ==> r.value + HeaderOffset == dom[id].offsetTop
  {
    if id in dom then Some(dom[id].offsetTop - HeaderOffset) else None
  }

  /** A scroll event reporting the link's target makes its section active,
      provided the sections do not overlap, the section is at least 80
      pixels down (so the browser need not clamp the target at 0) and more
      than 20 pixels tall (so the probe, 20 pixels into it, lands inside). */
  lemma LinkClickActivates(prev: string, id: string, dom: Dom)
    requires Disjoint(dom) && id in SectionIds && id in dom
    requires dom[id].offsetTop >= HeaderOffset && dom[id].height > ProbeOffset - HeaderOffset
    ensures ScrollTarget(id, dom).Some?
    ensures ActiveAfter(prev, ScrollTarget(id, dom).value, dom) == id
  {
    DisjointHitIsActive(prev, ScrollTarget(id, dom).value, dom, id);
  }

  /** Whether a link is drawn highlighted. */
  function Highlighted(n: Nav, linkId: string): (b: bool)
    ensures forall i :: 0 <= i < |NavLinks| && NavLinks[i].1 == linkId ==> (b <==> SectionIds[i] == n.active)
  {
    n.active == linkId
  }

  /** The link ids are distinct, so at most one link is highlighted, and one
      is whenever the active section is listed. */
  lemma OneLinkHighlighted(n: Nav)
    ensures forall i, j :: (0 <= i < |NavLinks| && 0 <= j < |NavLinks|
              && Highlighted(n, NavLinks[i].1) && Highlighted(n, NavLinks[j].1)) ==> i == j
    ensures n.active in SectionIds ==>
              exists i :: 0 <= i < |NavLinks| && Highlighted(n, NavLinks[i].1)
  {
    assert forall i :: 0 <= i < |NavLinks| ==> NavLinks[i].1 == SectionIds[i];
  }
}

=== FILE: optional.dfy ===
/** A value that may be absent: a missing DOM element, a failed network call,
    a `Date` whose `toISOString` throws. */
module Optional {

  datatype Option<+T> = None | Some(value: T)
}

=== FILE: projects.dfy ===
/** The project gallery (`src/components/Projects.tsx`): a fixed catalogue,
    filter buttons, and an effect that, a moment after the filter changes,
    shows either the whole catalogue or the projects of the chosen type. */
module Projects {

  import opened Optional

  datatype Project = Project(id: nat, title: string, description: string,
                             technologies: seq<string>, kind: string, link: Option<string>)

  /** The six projects, in display order. */
  const Catalogue: seq<Project> := [
    Project(1, "Cloud-Native CI/CD Platform",
      "Designed and implemented a cloud-native CI/CD platform using Kubernetes, Tekton, and ArgoCD, reducing deployment time by 70% and improving reliability.",
      ["Kubernetes", "Tekton", "ArgoCD", "Go", "AWS"], "Enterprise", Some("#")),
    Project(2, "Infrastructure as Code Framework",
      "Created a comprehensive IaC framework using Terraform modules and GitOps principles, enabling teams to spin up production-grade environments in minutes.",
      ["Terraform", "AWS", "GitHub Actions", "Python", "Docker"], "Enterprise", Some("#")),
    Project(3, "Observability Platform",
      "Built a unified observability platform combining metrics, logs, and traces using Prometheus, Loki, and Tempo, improving incident response time by 60%.",
      ["Prometheus", "Grafana", "Loki", "Tempo", "Kubernetes"], "Enterprise", Some("#")),
    Project(4, "Serverless ETL Pipeline",
      "Designed and implemented a serverless ETL pipeline processing 10TB+ of data daily using AWS Lambda, Step Functions, and S3.",
      ["AWS Lambda", "Step Functions", "S3", "Python", "DynamoDB"], "Data Engineering", Some("#")),
    Project(5, "Multi-Cloud Disaster Recovery",
      "Implemented a robust DR solution spanning AWS and GCP with automated failover capabilities and 99.99% availability SLA.",
      ["AWS", "GCP", "Terraform", "Python", "Kubernetes"], "Infrastructure", Some("#")),
    Project(6, "Secret Management System",
      "Deployed and customized HashiCorp Vault with custom authentication methods and automated secret rotation across multiple environments.",
      ["Vault", "Kubernetes", "Go", "Terraform", "GitOps"], "Security", Some("#"))
  ]

  const All: string := "All"

  /** The filter buttons, in display order. */
  const Filters: seq<string> := [All, "Enterprise", "Infrastructure", "Security", "Data Engineering"]

  // ---------------------------------------------------------------------------
  // Filtering
  // ---------------------------------------------------------------------------

  /** `ps.filter(project => project.type === kind)`. */
  function OfKind(ps: seq<Project>, kind: string): (r: seq<Project>)
    ensures |r| <= |ps|
    ensures forall p :: p in r ==> p in ps && p.kind == kind
    ensures forall p :: p in ps && p.kind == kind ==> p in r
  {
    if ps == [] then []
    else if ps[0].kind == kind then [ps[0]] + OfKind(ps[1..], kind)
    else OfKind(ps[1..], kind)
  }

  /** The type filter keeps every project of that type as often as it
      occurs, and no other project. */
  lemma {:induction false} OfKindCounts(ps: seq<Project>, kind: string)
    ensures forall p :: multiset(OfKind(ps, kind))[p] == if p.kind == kind then multiset(ps)[p] else 0
  {
    if ps != [] {
      assert ps == [ps[0]] + ps[1..];
      OfKindCounts(ps[1..], kind);
    }
  }

  /** What the effect displays once its timer has fired, for the project
      list `catalogue` (the component's `projects`, `Catalogue` above). */
  function View(catalogue: seq<Project>, filter: string): (r: seq<Project>)
    ensures forall p :: p in r <==> p in catalogue && (filter == All || p.kind == filter)
    ensures multiset(r) <= multiset(catalogue)
  {
    OfKindCounts(catalogue, filter);
    if filter == All then catalogue else OfKind(catalogue, filter)
  }

  /** `a` is `b` with some elements left out, the rest in their order. */
  predicate IsSubsequence<T(==)>(a: seq<T>, b: seq<T>)
    decreases |b|
  {
    if a == [] then true
    else if b == [] then false
    else if a[0] == b[0] then IsSubsequence(a[1..], b[1..])
    else IsSubsequence(a, b[1..])
  }

  /** Filtering keeps the catalogue's order. */
  lemma {:induction false} OfKindIsSubsequence(ps: seq<Project>, kind: string)
    ensures IsSubsequence(OfKind(ps, kind), ps)
  {
    if ps != [] {
      OfKindIsSubsequence(ps[1..], kind);
      var r := OfKind(ps[1..], kind);
      if ps[0].kind != kind {
        SubsequenceSkip(r, ps);
      }
    }
  }

  /** A subsequence of the tail is a subsequence of the whole. */
  lemma {:induction false} SubsequenceSkip<T>(a: seq<T>, b: seq<T>)
    requires b != [] && IsSubsequence(a, b[1..])
    ensures IsSubsequence(a, b)
    decreases |b|, 0
  {
    if a != [] && a[0] == b[0] {
      SubsequenceDrop(a, b[1..]);
    }
  }

  /** Dropping the head of `a` keeps it a subsequence. */
  lemma {:induction false} SubsequenceDrop<T>(a: seq<T>, b: seq<T>)
    requires a != [] && IsSubsequence(a, b)
    ensures IsSubsequence(a[1..], b)
    decreases |b|, 1
  {
    if a[1..] != [] {
      if a[0] == b[0] {
        SubsequenceSkip(a[1..], b);
      } else {
        SubsequenceDrop(a, b[1..]);
        SubsequenceSkip(a[1..], b);
      }
    }
  }

  /** Filtering twice by the same type is filtering once. */
  lemma {:induction false} OfKindIdempotent(ps: seq<Project>, kind: string)
    ensures OfKind(OfKind(ps, kind), kind) == OfKind(ps, kind)
  {
    if ps != [] {
      OfKindIdempotent(ps[1..], kind);
      if ps[0].kind == kind {
        assert ([ps[0]] + OfKind(ps[1..], kind))[1..] == OfKind(ps[1..], kind);
      }
    }
  }

  /** Filtering a concatenation filters each part. */
  lemma {:induction false} OfKindAppend(a: seq<Project>, b: seq<Project>, kind: string)
    ensures OfKind(a + b, kind) == OfKind(a, kind) + OfKind(b, kind)
  {
    if a == [] {
      assert a + b == b;
    } else {
      assert (a + b)[1..] == a[1..] + b;
      OfKindAppend(a[1..], b, kind);
    }
  }

  /** The projects of the given types, type by type. */
  function OfKinds(ps: seq<Project>, kinds: seq<string>): multiset<Project> {
    if kinds == [] then multiset{} else multiset(OfKind(ps, kinds[0])) + OfKinds(ps, kinds[1..])
  }

  /** When every project's type is among `kinds` and the kinds are
      distinct, the per-type views together hold each project exactly once. */
  lemma {:induction false} KindsPartition(ps: seq<Project>, kinds: seq<string>)
    requires forall i, j :: 0 <= i < j < |kinds| ==> kinds[i] != kinds[j]
    requires forall p :: p in ps ==> p.kind in kinds
    ensures OfKinds(ps, kinds) == multiset(ps)
    decreases |ps|
  {
    if ps == [] {
      OfKindsEmpty(kinds);
    } else {
      var p := ps[0];
      assert ps == [p] + ps[1..];
      KindsPartition(ps[1..], kinds);
      OfKindsCons(p, ps[1..], kinds);
    }
  }

  lemma {:induction false} OfKindsEmpty(kinds: seq<string>)
    ensures OfKinds([], kinds) == multiset{}
  {
    if kinds != [] {
      OfKindsEmpty(kinds[1..]);
    }
  }

  /** Adding a project in front adds it once, under its own type. */
  lemma {:induction false} OfKindsCons(p: Project, ps: seq<Project>, kinds: seq<string>)
    requires forall i, j :: 0 <= i < j < |kinds| ==> kinds[i] != kinds[j]
    ensures OfKinds([p] + ps, kinds) ==
              OfKinds(ps, kinds) + (if p.kind in kinds then multiset{p} else multiset{})
  {
    if kinds != [] {
      assert ([p] + ps)[1..] == ps;
      OfKindsCons(p, ps, kinds[1..]);
      if p.kind == kinds[0] {
        assert p.kind !in kinds[1..];
      }
    }
  }

  // ---------------------------------------------------------------------------
  // The catalogue
  // ---------------------------------------------------------------------------

  /** Project ids are distinct, as their use as list keys requires. */
  lemma CatalogueIdsDistinct()
    ensures forall i, j :: 0 <= i < j < |Catalogue| ==> Catalogue[i].id != Catalogue[j].id
  {
  }

  /** Every project's type has a filter button. */
  lemma CatalogueKindsHaveButtons()
    ensures forall p :: p in Catalogue ==> p.kind in Filters[1..]
  {
  }

  /** The four type filters split the catalogue: each project is shown by
      exactly one of them. */
  lemma TypeFiltersPartitionCatalogue()
    ensures OfKinds(Catalogue, Filters[1..]) == multiset(Catalogue)
  {
    CatalogueKindsHaveButtons();
    KindsPartition(Catalogue, Filters[1..]);
  }

  // ---------------------------------------------------------------------------
  // The gallery state
  // ---------------------------------------------------------------------------

  /** `filter`, `animating` and `displayedProjects`. The gallery's functions
      take the project list as a parameter; the component uses `Catalogue`. */
  datatype Gallery = Gallery(filter: string, animating: bool, displayed: seq<Project>)

  /** Just mounted: the effect has run once, so the fade-out is on and its
      timer is pending. */
  function Mount(catalogue: seq<Project>): (g: Gallery)
    ensures g.filter == All && g.animating && g.displayed == catalogue
  {
    Gallery(All, true, catalogue)
  }

  /** A filter button is clicked. Setting the same filter again changes no
      state, so the effect does not re-run; a new filter starts the fade-out
      and replaces any pending timer. */
  function Select(g: Gallery, name: string): (h: Gallery)
    requires name in Filters
    ensures h.filter == name && h.displayed == g.displayed
    ensures h.animating == (g.animating || name != g.filter)
  {
    if name == g.filter then g else Gallery(name, true, g.displayed)
  }

  /** The pending timer fires: the view for the current filter is shown. */
  function Settle(g: Gallery, catalogue: seq<Project>): (h: Gallery)
    ensures h.filter == g.filter && !h.animating
    ensures g.animating ==> h.displayed == View(catalogue, g.filter)
    ensures !g.animating ==> h == g
  {
    if g.animating then Gallery(g.filter, false, View(catalogue, g.filter)) else g
  }

  /** The filter is always one of the buttons, and once no fade is running
      the displayed list is exactly the view of the filter. */
  predicate Coherent(g: Gallery, catalogue: seq<Project>) {
    && g.filter in Filters
    && (!g.animating ==> g.displayed == View(catalogue, g.filter))
  }

  lemma MountCoherent(catalogue: seq<Project>)
    ensures Coherent(Mount(catalogue), catalogue)
  {
  }

  lemma SelectCoherent(g: Gallery, catalogue: seq<Project>, name: string)
    requires Coherent(g, catalogue) && name in Filters
    ensures Coherent(Select(g, name), catalogue)
  {
  }

  lemma SettleCoherent(g: Gallery, catalogue: seq<Project>)
    requires Coherent(g, catalogue)
    ensures Coherent(Settle(g, catalogue), catalogue)
    ensures Settle(g, catalogue).displayed == View(catalogue, g.filter)
  {
  }

  /** Whether a button is drawn as the active one. */
  function IsActive(g: Gallery, name: string): (b: bool)
    ensures name in Filters ==> (b <==> Select(g, name) == g)
  {
    name == g.filter
  }

  /** The button names are distinct (they differ in length). */
  lemma FiltersDistinct()
    ensures forall i, j :: 0 <= i < |Filters| && 0 <= j < |Filters| && Filters[i] == Filters[j] ==> i == j
  {
    assert |Filters| == 5;
    assert |Filters[0]| == 3 && |Filters[1]| == 10 && |Filters[2]| == 14;
    assert |Filters[3]| == 8 && |Filters[4]| == 16;
  }

  /** Exactly one button is active: the one naming the current filter. */
  lemma ExactlyOneActive(g: Gallery)
    requires g.filter in Filters
    ensures exists i :: 0 <= i < |Filters| && IsActive(g, Filters[i])
    ensures forall i, j ::
              (0 <= i < |Filters| && 0 <= j < |Filters|
               && IsActive(g, Filters[i]) && IsActive(g, Filters[j])) ==> i == j
  {
    FiltersDistinct();
  }

  /** What is shown for a filter: all projects for "All", otherwise those of
      that type, in list order, none missing. */
  lemma ViewSpec(catalogue: seq<Project>, filter: string)
    ensures filter == All ==> View(catalogue, filter) == catalogue
    ensures filter != All ==>
              && IsSubsequence(View(catalogue, filter), catalogue)
              && (forall p :: p in View(catalogue, filter) ==> p.kind == filter)
              && (forall p :: p in catalogue && p.kind == filter ==> p in View(catalogue, filter))
              && OfKind(View(catalogue, filter), filter) == View(catalogue, filter)
  {
    if filter != All {
      OfKindIsSubsequence(catalogue, filter);
      OfKindIdempotent(catalogue, filter);
    }
  }
}

=== FILE: responder.dfy ===
/** The canned-response matcher of the chat client (`getSimulatedResponse` in
    `src/api/chat.ts`): the query is lower-cased and checked, in a fixed order,
    for trigger words; the first topic whose trigger occurs picks the reply. */
module Responder {

  import opened Text

  /** The seven replies: six topics and the general answer. */
  datatype Topic = Experience | Education | Skills | Projects | Resume | Identity | General

  /** The topics in the order their triggers are checked. */
  const Ladder: seq<Topic> := [Experience, Education, Skills, Projects, Resume, Identity]

  /** The trigger words of each topic. */
  function Keywords(t: Topic): seq<string> {
    match t
    case Experience => ["experience", "work"]
    case Education => ["education", "study"]
    case Skills => ["skill", "tech"]
    case Projects => ["project"]
    case Resume => ["resume"]
    case Identity => ["name", "who"]
    case General => []
  }

  /** All ten trigger words, in test order. */
  const AllKeywords: seq<string> :=
    ["experience", "work", "education", "study", "skill", "tech", "project", "resume", "name", "who"]

  /** Position of a topic in the test order; the general answer comes last. */
  function Rank(t: Topic): nat {
    match t
    case Experience => 0
    case Education => 1
    case Skills => 2
    case Projects => 3
    case Resume => 4
    case Identity => 5
    case General => 6
  }

  /** Some trigger word of `t` occurs in the lower-cased query `lq`. */
  predicate Mentions(lq: string, t: Topic) {
    exists i | 0 <= i < |Keywords(t)| :: Contains(lq, Keywords(t)[i])
  }

  /** The branch `getSimulatedResponse` takes for `query`: a topic the
      lower-cased query mentions, or the general answer when it mentions none. */
  function Classify(query: string): (t: Topic)
    ensures t == General || Mentions(Lower(query), t)
    ensures t == General ==> forall u :: !Mentions(Lower(query), u)
  {
    var lq := Lower(query);
    MentionsUnfolded(lq);
    if Contains(lq, "experience") || Contains(lq, "work") then Experience
    else if Contains(lq, "education") || Contains(lq, "study") then Education
    else if Contains(lq, "skill") || Contains(lq, "tech") then Skills
    else if Contains(lq, "project") then Projects
    else if Contains(lq, "resume") then Resume
    else if Contains(lq, "name") || Contains(lq, "who") then Identity
    else General
  }

  /** The paragraph each branch returns. */
  function Paragraph(t: Topic): string {
    match t
    case Experience => "Tomer has over 8 years of experience in DevOps, working with companies like AWS, Google Cloud, and various startups to implement CI/CD pipelines, infrastructure as code, and Kubernetes deployments."
    case Education => "Tomer has a Master's degree in Computer Science with a focus on distributed systems from Stanford University."
    case Skills => "Tomer's technical skills include: Kubernetes, Docker, Terraform, AWS, GCP, Azure, CI/CD (Jenkins, GitHub Actions, GitLab CI), Ansible, Prometheus, Grafana, ELK stack, and various programming languages like Python, Go, and Bash."
    case Projects => "Tomer has led several significant projects, including a complete cloud migration for a Fortune 500 company, implementing a zero-downtime deployment system, and building an automated disaster recovery solution that reduced recovery time by 80%."
    case Resume => "You can download Tomer's full resume by clicking the 'Download Resume' button in the contact section. It includes detailed information about his work history, projects, and technical skills."
    case Identity => "My name is Tomer! I'm a DevOps Engineer with expertise in cloud infrastructure, automation, and CI/CD pipelines."
    case General => "Thanks for your question! As Tomer's AI assistant, I can tell you about his experience, skills, projects, education, or resume. Feel free to ask something specific!"
  }

  /** `r` is one of the seven fixed paragraphs. */
  predicate IsCanned(r: string) {
    exists t: Topic :: Paragraph(t) == r
  }

  /** `getSimulatedResponse(query)`. */
  function SimulatedResponse(query: string): (r: string)
    ensures IsCanned(r)
  {
    Paragraph(Classify(query))
  }

  /** The first topic of `ladder` that `lq` mentions: a table-driven reading
      of the matcher, independent of its if-chain. */
  function FirstMentioned(lq: string, ladder: seq<Topic>): (t: Topic)
    ensures t == General || (t in ladder && Mentions(lq, t))
  {
    if ladder == [] then General
    else if Mentions(lq, ladder[0]) then ladder[0]
    else FirstMentioned(lq, ladder[1..])
  }

  /** Each topic's `Mentions` is the disjunction the if-chain tests. */
  lemma MentionsUnfolded(lq: string)
    ensures Mentions(lq, Experience) <==> Contains(lq, "experience") || Contains(lq, "work")
    ensures Mentions(lq, Education) <==> Contains(lq, "education") || Contains(lq, "study")
    ensures Mentions(lq, Skills) <==> Contains(lq, "skill") || Contains(lq, "tech")
    ensures Mentions(lq, Projects) <==> Contains(lq, "project")
    ensures Mentions(lq, Resume) <==> Contains(lq, "resume")
    ensures Mentions(lq, Identity) <==> Contains(lq, "name") || Contains(lq, "who")
    ensures !Mentions(lq, General)
  {
    forall t: Topic
      ensures Mentions(lq, t) <==>
                (|Keywords(t)| > 0 && Contains(lq, Keywords(t)[0]))
                || (|Keywords(t)| > 1 && Contains(lq, Keywords(t)[1]))
    {
    }
  }

  /** First-match over the ladder, unrolled. */
  lemma FirstMentionedUnrolled(lq: string)
    ensures FirstMentioned(lq, Ladder) ==
              if Mentions(lq, Experience) then Experience
              else if Mentions(lq, Education) then Education
              else if Mentions(lq, Skills) then Skills
              else if Mentions(lq, Projects) then Projects
              else if Mentions(lq, Resume) then Resume
              else if Mentions(lq, Identity) then Identity
              else General
  {
    var l1 := [Education, Skills, Projects, Resume, Identity];
    var l2 := [Skills, Projects, Resume, Identity];
    var l3 := [Projects, Resume, Identity];
    var l4 := [Resume, Identity];
    assert Ladder[1..] == l1 && l1[1..] == l2 && l2[1..] == l3 && l3[1..] == l4;
    assert l4[1..] == [Identity] && [Identity][1..] == [];
    assert FirstMentioned(lq, [Identity]) == if Mentions(lq, Identity) then Identity else General;
    assert FirstMentioned(lq, l4) == if Mentions(lq, Resume) then Resume else FirstMentioned(lq, [Identity]);
    assert FirstMentioned(lq, l3) == if Mentions(lq, Projects) then Projects else FirstMentioned(lq, l4);
    assert FirstMentioned(lq, l2) == if Mentions(lq, Skills) then Skills else FirstMentioned(lq, l3);
    assert FirstMentioned(lq, l1) == if Mentions(lq, Education) then Education else FirstMentioned(lq, l2);
  }

  /** The if-chain is the first-match over the trigger table. */
  lemma ClassifyIsFirstMentioned(query: string)
    ensures Classify(query) == FirstMentioned(Lower(query), Ladder)
  {
    MentionsUnfolded(Lower(query));
    FirstMentionedUnrolled(Lower(query));
  }

  /** Upper- and lower-case letters are not told apart: a query and its
      lower-cased form get the same reply. */
  lemma CaseInsensitive(query: string)
    ensures Classify(Lower(query)) == Classify(query)
    ensures SimulatedResponse(Lower(query)) == SimulatedResponse(query)
  {
    LowerIdempotent(query);
    var lq := Lower(query);
    assert Lower(lq) == lq;
    assert Classify(lq) == Classify(query);
  }

  /** A query that mentions experience or work gets the experience reply,
      whatever else it mentions. */
  lemma ExperienceFirst(query: string)
    requires Contains(Lower(query), "experience") || Contains(Lower(query), "work")
    ensures Classify(query) == Experience
  {
  }

  /** The matcher picks `t` exactly when `t` is mentioned (or is the general
      answer) and no topic checked before `t` is mentioned. */
  lemma {:induction false} ClassifySpec(query: string, t: Topic)
    ensures Classify(query) == t <==>
              (t == General || Mentions(Lower(query), t))
              && forall u: Topic :: Rank(u) < Rank(t) ==> !Mentions(Lower(query), u)
  {
    ClassifyIsFirstMentioned(query);
    var lq := Lower(query);
    FirstMentionedSpec(lq, Ladder, 0, t);
  }

  /** The ladder lists every topic but the general answer, in rank order. */
  lemma LadderRanks()
    ensures |Ladder| == 6
    ensures forall i :: 0 <= i < |Ladder| ==> Rank(Ladder[i]) == i
    ensures forall u: Topic :: u != General ==> Ladder[Rank(u)] == u
  {
    forall u: Topic | u != General
      ensures Ladder[Rank(u)] == u
    {
    }
  }

  /** First-match over `ladder`, the suffix of the ladder from position `n`. */
  lemma {:induction false} FirstMentionedSpec(lq: string, ladder: seq<Topic>, n: nat, t: Topic)
    requires n <= |Ladder| && ladder == Ladder[n..]
    requires forall u: Topic :: Rank(u) < n ==> !Mentions(lq, u)
    ensures FirstMentioned(lq, ladder) == t <==>
              (t == General || Mentions(lq, t))
              && forall u: Topic :: Rank(u) < Rank(t) ==> !Mentions(lq, u)
    decreases |ladder|
  {
    LadderRanks();
    if ladder == [] {
      assert n == 6;
      forall u: Topic | u != General
        ensures Rank(u) < n
      {
      }
    } else {
      var h := ladder[0];
      assert Rank(h) == n;
      if Mentions(lq, h) {
        assert FirstMentioned(lq, ladder) == h;
      } else {
        assert ladder[1..] == Ladder[n + 1..];
        forall u: Topic | Rank(u) < n + 1
          ensures !Mentions(lq, u)
        {
          if Rank(u) == n {
            assert u == h;
          }
        }
        FirstMentionedSpec(lq, ladder[1..], n + 1, t);
      }
    }
  }

  /** The general answer is given exactly when the query holds none of the
      ten trigger words. */
  lemma GeneralIffNoKeyword(query: string)
    ensures Classify(query) == General <==>
              forall k :: k in AllKeywords ==> !Contains(Lower(query), k)
  {
  }
}

=== FILE: text.dfy ===
/** The few JavaScript string operations the components rely on:
    `toLowerCase` (ASCII letters only), `includes`, `trim`, and the decimal
    `toString` of a non-negative integer. */
module Text {

  // ---------------------------------------------------------------------------
  // Lower-casing
  // ---------------------------------------------------------------------------

  predicate IsUpper(c: char) {
    'A' <= c <= 'Z'
  }

  function LowerChar(c: char): char {
    if IsUpper(c) then (c as int + 32) as char else c
  }

  /** `String.prototype.toLowerCase`, restricted to the ASCII letters. */
  function Lower(s: string): (r: string)
    ensures |r| == |s|
    ensures forall i :: 0 <= i < |s| ==> r[i] == LowerChar(s[i])
  {
    seq(|s|, i requires 0 <= i < |s| => LowerChar(s[i]))
  }

  /** A string with no upper-case ASCII letter. */
  predicate IsLowered(s: string) {
    forall i :: 0 <= i < |s| ==> !IsUpper(s[i])
  }

  lemma LowerIsLowered(s: string)
    ensures IsLowered(Lower(s))
  {
  }

  /** Lower-casing an already lower-case string changes nothing. */
  lemma LowerFixesLowered(s: string)
    requires IsLowered(s)
    ensures Lower(s) == s
  {
  }

  /** Lower-casing twice is lower-casing once. */
  lemma LowerIdempotent(s: string)
    ensures Lower(Lower(s)) == Lower(s)
  {
    LowerIsLowered(s);
    LowerFixesLowered(Lower(s));
  }

  // ---------------------------------------------------------------------------
  // Substring search
  // ---------------------------------------------------------------------------

  predicate OccursAt(s: string, pat: string, i: int) {
    0 <= i && i + |pat| <= |s| && s[i..i + |pat|] == pat
  }

  /** `s.includes(pat)`: `pat` occurs somewhere in `s`. */
  function Contains(s: string, pat: string): (b: bool)
    ensures pat == [] ==> b
    ensures b ==> |pat| <= |s|
  {
    assert OccursAt(s, [], 0);
    exists i | 0 <= i <= |s| :: OccursAt(s, pat, i)
  }

  /** `s.indexOf(pat)`: the first position at which `pat` occurs, or -1. */
  method IndexOf(s: string, pat: string) returns (k: int)
    ensures -1 <= k <= |s|
    ensures k == -1 <==> !Contains(s, pat)
    ensures k >= 0 ==> OccursAt(s, pat, k)
    ensures forall j :: 0 <= j < k ==> !OccursAt(s, pat, j)
  {
    if |pat| > |s| {
      return -1;
    }
    var i := 0;
    while i <= |s| - |pat|
      invariant 0 <= i <= |s| - |pat| + 1
      invariant forall j :: 0 <= j < i ==> !OccursAt(s, pat, j)
    {
      if s[i..i + |pat|] == pat {
        assert OccursAt(s, pat, i);
        return i;
      }
      i := i + 1;
    }
    return -1;
  }

  /** A pattern longer than the text cannot occur in it. */
  lemma TooLongNotContained(s: string, pat: string)
    requires |pat| > |s|
    ensures !Contains(s, pat)
  {
  }

  // ---------------------------------------------------------------------------
  // Trimming
  // ---------------------------------------------------------------------------

  /** The characters `String.prototype.trim` removes: the ECMAScript
      WhiteSpace and LineTerminator code points. */
  predicate IsJsSpace(c: char) {
    || c == '\t' || c == '\U{B}' || c == '\U{C}' || c == ' '
    || c == '\U{A0}' || c == '\U{FEFF}'
    || c == '\n' || c == '\r' || c == '\U{2028}' || c == '\U{2029}'
    || c == '\U{1680}' || ('\U{2000}' <= c <= '\U{200A}')
    || c == '\U{202F}' || c == '\U{205F}' || c == '\U{3000}'
  }

  /** Every character of `s[lo..hi]` is white space. */
  predicate SpaceBetween(s: string, lo: int, hi: int)
    requires 0 <= lo <= hi <= |s|
  {
    forall i :: lo <= i < hi ==> IsJsSpace(s[i])
  }

  /** The end of the run of white space that starts at `i`. */
  function SpaceRunFrom(s: string, i: nat): (r: nat)
    requires i <= |s|
    ensures i <= r <= |s|
    ensures SpaceBetween(s, i, r)
    ensures r < |s| ==> !IsJsSpace(s[r])
    decreases |s| - i
  {
    if i < |s| && IsJsSpace(s[i]) then SpaceRunFrom(s, i + 1) else i
  }

  /** The start of the run of white space that ends at `j`, not going below `lo`. */
  function SpaceRunBefore(s: string, lo: nat, j: nat): (r: nat)
    requires lo <= j <= |s|
    ensures lo <= r <= j
    ensures SpaceBetween(s, r, j)
    ensures r > lo ==> !IsJsSpace(s[r - 1])
  {
    if j > lo && IsJsSpace(s[j - 1]) then SpaceRunBefore(s, lo, j - 1) else j
  }

  /** `s.trim()`: `s` with its leading and trailing white space removed. */
  function Trim(s: string): (r: string)
    ensures exists a, b :: 0 <= a <= b <= |s| && r == s[a..b]
                           && SpaceBetween(s, 0, a) && SpaceBetween(s, b, |s|)
    ensures r != [] ==> !IsJsSpace(r[0]) && !IsJsSpace(r[|r| - 1])
  {
    var a := SpaceRunFrom(s, 0);
    var b := SpaceRunBefore(s, a, |s|);
    s[a..b]
  }

  /** `!s.trim()`: the string is empty once trimmed. */
  predicate IsBlank(s: string) {
    Trim(s) == []
  }

  /** A string is blank exactly when every character of it is white space. */
  lemma BlankIffAllSpace(s: string)
    ensures IsBlank(s) <==> SpaceBetween(s, 0, |s|)
  {
    var r := Trim(s);
    var a, b :| 0 <= a <= b <= |s| && r == s[a..b]
                && SpaceBetween(s, 0, a) && SpaceBetween(s, b, |s|);
    if !IsBlank(s) {
      assert s[a] == r[0];
    }
  }

  // ---------------------------------------------------------------------------
  // Decimal text
  // ---------------------------------------------------------------------------

  predicate IsDigit(c: char) {
    '0' <= c <= '9'
  }

  function DigitChar(d: nat): char
    requires d < 10
  {
    ('0' as int + d) as char
  }

  /** `n.toString()` for a non-negative integer, as `Date.now().toString()`
      yields the message ids. */
  function DecimalString(n: nat): (r: string)
    ensures r != []
    ensures forall i :: 0 <= i < |r| ==> IsDigit(r[i])
    ensures r[0] == '0' ==> n == 0 && r == "0"
  {
    if n < 10 then [DigitChar(n)] else DecimalString(n / 10) + [DigitChar(n % 10)]
  }

  function DigitValue(c: char): nat
    requires IsDigit(c)
  {
    c as int - '0' as int
  }

  /** Reads back a string of decimal digits. */
  function ParseDecimal(s: string): nat
    requires forall i :: 0 <= i < |s| ==> IsDigit(s[i])
  {
    if s == [] then 0 else 10 * ParseDecimal(s[..|s| - 1]) + DigitValue(s[|s| - 1])
  }

  /** The id text of a time stamp determines the time stamp. */
  lemma {:induction false} ParseDecimalString(n: nat)
    ensures ParseDecimal(DecimalString(n)) == n
  {
    if n >= 10 {
      var r := DecimalString(n);
      assert r[..|r| - 1] == DecimalString(n / 10);
      ParseDecimalString(n / 10);
    }
  }

  lemma DecimalStringInjective(m: nat, n: nat)
    ensures DecimalString(m) == DecimalString(n) <==> m == n
  {
    if DecimalString(m) == DecimalString(n) {
      ParseDecimalString(m);
      ParseDecimalString(n);
    }
  }
}
